=== FILE: README.md ===
# Doctor record — a Dafny model

This project models the `Doctor` entity of a clinic-management coursework
system: one doctor's profile (id, name, specialization, contact details, fee),
their schedule (working-day names and a working-hours window) and the daily
booking counter (`currentPatientCount` against `maxPatientsPerDay`).

The Java class is a mutable object; here a record is an immutable `datatype`
and every mutator is a pure function returning the updated record. Because a
`seq` is a value, the defensive copies the class makes of its working-day array
on every boundary hold by construction.

Modules, one concern each:

- `Wrappers` — `Option`, standing for a Java reference that may be null.
- `JavaInt` — the 32-bit `int` (`Int32`, wrap-around `Wrap`) and `String.hashCode`.
- `LocalTimes` — times of day as the nanosecond of the day, `toSecondOfDay`, `isBefore`/`isAfter`.
- `CaseFold` — `equalsIgnoreCase` and `compareToIgnoreCase`, with ASCII case mapping.
- `Doctors` — the record, its three constructors and `setWorkingDays`.
- `PatientCounter` — `canTakeMorePatients`, the guarded increment and decrement, the
  unguarded setters, and the bound `0 <= currentPatientCount <= maxPatientsPerDay`.
- `Schedule` — `isWorkingToday`, `isWithinWorkingHours`, `calculateWorkingHours`.
- `Identity` — `equals`, `hashCode`, `compareByName`, `compareBySpecialization`.
- `Scenarios` — what a freshly constructed record promises, and capacity scenarios.

Two facts about the code shape the model:

- The counter is not clamped: only `incrementPatientCount` and `decrementPatientCount` are
  guarded, so `setCurrentPatientCount`, `setMaxPatientsPerDay` and a negative capacity in the
  full constructor can leave `[0, maxPatientsPerDay]`.
- The `workingDays == null` test in `isWorkingToday` (Doctor.java:193) cannot be reached,
  because every constructor and `setWorkingDays` store an empty array for null. So the
  model's day list is a plain sequence.

## Model

| member | source | states |
|---|---|---|
| Doctors.DefaultDoctor | dsa_assignment/src/entity/Doctor.java:26-39 | no-argument constructor: available, no patients, capacity 20, no working days, empty strings, fee 0.0, start exactly 09:00 (second 32400, no nanoseconds) and end exactly 17:00 (second 61200) |
| Doctors.NewDoctor | dsa_assignment/src/entity/Doctor.java:42-48 | identity constructor: the four given fields, and every other field as in the default record |
| Doctors.FullDoctor | dsa_assignment/src/entity/Doctor.java:51-66 | full constructor: availability forced true and count forced 0 whatever the arguments; a null day array is stored as no days; all other fields as given |
| Doctors.SetWorkingDays | dsa_assignment/src/entity/Doctor.java:146-148 | a null day array clears the days, otherwise they are replaced; nothing else changes |
| Scenarios.DefaultDoctorIsReady | dsa_assignment/src/entity/Doctor.java:26-39 | a default record is within the counter bound, takes patients, works no day, spans 8 hours, and its window holds 09:00 and 17:00 but not the nanosecond before 09:00 |
| Scenarios.FullDoctorStartsEmpty | dsa_assignment/src/entity/Doctor.java:51-66 | a fully built record is within the bound iff its capacity is at least 0, takes patients iff its capacity is positive, and with a null day array works no day |
| PatientCounter.CanTakeMorePatients | dsa_assignment/src/entity/Doctor.java:168-170 | definition (below capacity and available); admission implies the doctor is available, one more patient still fits within capacity, and the count has room in `int`; properties in `TransitionsKeepBounds` and `UnavailableIncrementIsNoOp` |
| PatientCounter.IncrementPatientCount | dsa_assignment/src/entity/Doctor.java:176-180 | the count rises by exactly one iff the doctor can take more patients, else it is unchanged; no other field changes; the rise never overflows `int` |
| PatientCounter.DecrementPatientCount | dsa_assignment/src/entity/Doctor.java:184-188 | the count falls by exactly one iff it is above zero, else it is unchanged; a non-negative count stays non-negative; no other field changes |
| PatientCounter.SetCurrentPatientCount | dsa_assignment/src/entity/Doctor.java:162-164 | assigns any count; the result is within the bound iff the new count lies in `[0, max]` |
| PatientCounter.SetMaxPatientsPerDay | dsa_assignment/src/entity/Doctor.java:158-160 | assigns any capacity; from a bounded record the bound survives iff the new capacity is at least the current count |
| PatientCounter.SetAvailable | dsa_assignment/src/entity/Doctor.java:142-144 | sets the flag; an unavailable doctor can take no patients |
| PatientCounter.TransitionsKeepBounds | dsa_assignment/src/entity/Doctor.java:168-188 | increment, decrement and setting availability each keep `0 <= count <= max` |
| PatientCounter.IncrementDecrementInverse | dsa_assignment/src/entity/Doctor.java:176-188 | a decrement undoes an effective increment, and an increment undoes a decrement on an available doctor within the bound |
| PatientCounter.UnavailableIncrementIsNoOp | dsa_assignment/src/entity/Doctor.java:168-180 | increment on an unavailable doctor changes nothing, even below capacity |
| PatientCounter.ApplyAllKeepsBounds | dsa_assignment/src/entity/Doctor.java:168-188 | the bound holds after any finite sequence of increments, decrements and availability changes |
| PatientCounter.ApplyAllFrame | dsa_assignment/src/entity/Doctor.java:142-188 | such a sequence changes only the count and the availability flag, and moves the count by at most one per operation |
| PatientCounter.IncrementTimesSaturates | dsa_assignment/src/entity/Doctor.java:168-180 | `n` increments give `min(count + n, max)` on an available doctor and leave an unavailable one unchanged |
| PatientCounter.DecrementTimesFloorsAtZero | dsa_assignment/src/entity/Doctor.java:184-188 | `n` decrements give `max(count - n, 0)` from a non-negative count |
| PatientCounter.SetCurrentPatientCountCanBreakBounds | dsa_assignment/src/entity/Doctor.java:162-164 | the direct setter takes a bounded default record to counts 21 and -1, both outside the bound |
| Scenarios.TwentyAdmissionsFillTheDay | dsa_assignment/src/entity/Doctor.java:168-180 | twenty increments on a new identity-constructed record reach 20 and close admission; a twenty-first leaves 20 |
| Scenarios.ZeroCapacityAdmitsNobody | dsa_assignment/src/entity/Doctor.java:168-180 | with capacity 0 no patient can be taken and any number of increments leaves the count at 0 |
| Schedule.IsWorkingToday | dsa_assignment/src/entity/Doctor.java:192-200 | the scan answers true iff some stored day equals the given day ignoring case |
| Schedule.NoDaysNoWorkingDay | dsa_assignment/src/entity/Doctor.java:192-200 | with no stored days no day is a working day |
| Schedule.ListsDayIgnoresCase | dsa_assignment/src/entity/Doctor.java:192-200 | day names equal ignoring case, such as a name and its lower-case spelling, get the same answer |
| Schedule.IsWithinWorkingHours | dsa_assignment/src/entity/Doctor.java:204-207 | definition (all present, not before the start, not after the end); a time within the window lies in `[start, end]`; properties in `WorkingHoursAreClosedInterval` and `AbsentTimeNeverWithin` |
| Schedule.WorkingHoursAreClosedInterval | dsa_assignment/src/entity/Doctor.java:204-207 | a time is within working hours iff both bounds are present and `start <= t <= end`; both ends are included, times outside are not |
| Schedule.AbsentTimeNeverWithin | dsa_assignment/src/entity/Doctor.java:204-207 | a null time or a null bound gives false |
| Schedule.WorkingSeconds | dsa_assignment/src/entity/Doctor.java:209-212 | zero when a bound is null; otherwise within one second of the exact end-minus-start difference; negative exactly when both bounds are present and the end's whole second precedes the start's; strictly between -86400 and 86400 |
| Schedule.WorkingSecondsSign | dsa_assignment/src/entity/Doctor.java:209-212 | a negative duration means the end is before the start; an end at least one second before the start gives a negative duration (no clamping to zero); ordered bounds, or any time within the window, give a non-negative duration |
| Schedule.InvertedWindowIsNegative | dsa_assignment/src/entity/Doctor.java:209-212 | a window from 17:00 back to 09:00 gives -28800 seconds, the difference unguarded |
| CaseFold.MondayIgnoresCase | dsa_assignment/src/entity/Doctor.java:195 | "MONDAY" and "monday" (and "Monday" and "mOnDaY") are equal ignoring case, while "Monday" and "Tuesday" are not |
| Identity.Equals | dsa_assignment/src/entity/Doctor.java:227-232 | definition; true exactly for another doctor record with the same id; properties in `EqualsIffSameId` and `EqualsIsEquivalence` |
| Identity.EqualsIffSameId | dsa_assignment/src/entity/Doctor.java:227-232 | a record equals another record iff their ids are equal, whatever their other fields; it never equals null or an object of another class |
| Identity.EqualsIsEquivalence | dsa_assignment/src/entity/Doctor.java:227-232 | equality of records is reflexive, symmetric and transitive |
| Identity.HashCode | dsa_assignment/src/entity/Doctor.java:236-238 | the hash is `31 + Σ id[i]·31^(n-1-i)` reduced into `int`, so a function of the id alone |
| Identity.HashCodeConsistentWithEquals | dsa_assignment/src/entity/Doctor.java:227-238 | equal records have equal hash codes |
| Identity.CompareByName | dsa_assignment/src/entity/Doctor.java:241-243 | zero exactly when the names are equal ignoring case; ordering properties in `ComparatorsAreOrderings` |
| Identity.CompareBySpecialization | dsa_assignment/src/entity/Doctor.java:245-247 | zero exactly when the specializations are equal ignoring case; ordering properties in `ComparatorsAreOrderings` |
| Identity.ComparatorsAreOrderings | dsa_assignment/src/entity/Doctor.java:241-247 | both comparators answer zero iff the fields are equal ignoring case, swap sign when the arguments swap, and are transitive |
| CaseFold.EqualsIgnoreCase | dsa_assignment/src/entity/Doctor.java:195 | `equalsIgnoreCase`: equal lengths and a per-character upper-then-lower match; holds exactly when the lower-case images are equal; properties in `EqualsIgnoreCaseIffSameLower` and `EqualsIgnoreCaseIsEquivalence` |
| CaseFold.EqualsIgnoreCaseIffSameLower | dsa_assignment/src/entity/Doctor.java:195 | two strings are equal ignoring case iff their lower-case images are equal |
| Identity.ComparatorsAreLexicographic | dsa_assignment/src/entity/Doctor.java:241-247 | both comparators sort ascending: past a common prefix ignoring case, a smaller lower-cased character or an ending field sorts first |
| CaseFold.EqualsIgnoreCaseIsEquivalence | dsa_assignment/src/entity/Doctor.java:195 | equality ignoring case is reflexive, symmetric and transitive |
| CaseFold.CompareIgnoreCase | dsa_assignment/src/entity/Doctor.java:241-247 | `compareToIgnoreCase`: zero only for equal lengths; when the first characters differ in lower case, the difference of the lower-cased characters; order properties in `CompareIgnoreCaseIsLexicographic` and the lemmas below |
| CaseFold.CompareIgnoreCaseIsLexicographic | dsa_assignment/src/entity/Doctor.java:241-247 | past a case-insensitively common prefix of length `k`: the difference of the lower-cased characters at `k` if they differ, else the difference of the lengths; so the order is ascending and lexicographic on lower-case images |
| CaseFold.CompareIgnoreCaseExamples | dsa_assignment/src/entity/Doctor.java:241-247 | "alice" sorts before "Bob", and "Ann" before "anna" |
| CaseFold.CompareIgnoreCaseZeroIff | dsa_assignment/src/entity/Doctor.java:241-247 | the case-insensitive comparison is zero iff the strings are equal ignoring case |
| CaseFold.CompareIgnoreCaseAntisymmetric | dsa_assignment/src/entity/Doctor.java:241-247 | swapping the arguments negates the comparison |
| CaseFold.CompareIgnoreCaseTransitive | dsa_assignment/src/entity/Doctor.java:241-247 | "compares at most zero" is transitive |
| JavaInt.StringHashIsWrappedPolynomial | dsa_assignment/src/entity/Doctor.java:236-238 | the step-by-step `int` hash of a string equals its unbounded polynomial reduced into `int` |
| LocalTimes.SecondOfDay | dsa_assignment/src/entity/Doctor.java:211 | the whole seconds since midnight, in `[0, 86400)`, within one second below the time |
| LocalTimes.SecondOfDayMonotone | dsa_assignment/src/entity/Doctor.java:211 | truncating to whole seconds keeps the order of times |

## Left out

- `toString`: formatted debugging text with `%.2f` floating-point rendering; not behaviour.
- `compareByFee` and any use of `consultationFee`: `double` comparison semantics (NaN, signed zero) are floating point. The fee is a `real` standing for a finite `double` (no NaN or infinities), and it is only copied.
- The division by 3600.0 in `calculateWorkingHours`: floating point. `Schedule.WorkingSeconds` models the integer seconds difference before it.
- Plain getters and the setters that only write one field (id, name, specialization, contact, email, fee, start and end time): field reads and record updates.
- Null strings: all string fields, and every string argument, are non-null in the model. In Java a null id still compares under `Objects.equals`. A stored null day name makes `isWorkingToday` throw (Doctor.java:195). A null name or specialization makes `compareByName` or `compareBySpecialization` throw (Doctor.java:242, 246).
- Schedule.IsWorkingToday: a null `day` argument, for which the source answers false, is not modelled.
- Identity.Equals: the `this == obj` shortcut is reference identity. It is implied by equal ids, so the model's answer is unchanged.
- CaseFold: case mapping covers ASCII letters only. The Unicode tables of `Character.toUpperCase` and `Character.toLowerCase` are not modelled.
- CaseFold.CompareIgnoreCase: characters are Unicode code points, not UTF-16 units. So a length difference that involves a character outside the Basic Multilingual Plane, and the order of such a character against other characters, can differ from Java's.
- Identity.CompareByName and Identity.CompareBySpecialization: they inherit the code-point reading of CaseFold.CompareIgnoreCase above.
- Identity.HashCode: characters are taken as single code units. A character outside the Basic Multilingual Plane is two UTF-16 units in Java and hashes differently.
- `LocalTime.of` range checking: the model's constructor of times requires an hour and minute in range, which the record's only two calls satisfy.
- Concurrency: the class has no synchronisation and the model is sequential.

=== FILE: case_fold.dfy ===
/**
 * Case-insensitive comparison of strings, as `String.equalsIgnoreCase` and
 * `String.compareToIgnoreCase` perform it. Character case mapping is the ASCII
 * part of `Character.toUpperCase` / `Character.toLowerCase`: every other
 * character is its own upper- and lower-case form.
 */
module CaseFold {

  function Upper(c: char): (r: char)
    ensures 'a' <= c <= 'z' ==> 'A' <= r <= 'Z' && Lower(r) == c
    ensures !('a' <= c <= 'z') ==> r == c
  {
    if 'a' <= c <= 'z' then (c as int - 32) as char else c
  }

  function Lower(c: char): (r: char)
    ensures 'A' <= c <= 'Z' ==> 'a' <= r <= 'z' && r != c
    ensures !('A' <= c <= 'Z') ==> r == c
  {
    if 'A' <= c <= 'Z' then (c as int + 32) as char else c
  }

  /** The per-character test of a case-insensitive region match: equal as
      written, equal once upper-cased, or equal once upper- then lower-cased. */
  predicate CharsMatch(c1: char, c2: char)
  {
    c1 == c2 || Upper(c1) == Upper(c2) || Lower(Upper(c1)) == Lower(Upper(c2))
  }

  /** The lower-case image of a string, character by character. */
  function LowerString(s: string): (r: string)
    ensures |r| == |s|
    ensures forall i :: 0 <= i < |s| ==> r[i] == Lower(s[i])
  {
    seq(|s|, i requires 0 <= i < |s| => Lower(s[i]))
  }

  /** `a.equalsIgnoreCase(b)` for a non-null `b`. */
  predicate EqualsIgnoreCase(a: string, b: string)
    ensures EqualsIgnoreCase(a, b) ==> |a| == |b|
    ensures EqualsIgnoreCase(a, b) <==> LowerString(a) == LowerString(b)
  {
    |a| == |b| && forall i :: 0 <= i < |a| ==> CharsMatch(a[i], b[i])
  }

  /** Two characters match ignoring case exactly when their lower-case forms agree. */
  lemma CharsMatchIffSameLower(c1: char, c2: char)
    ensures CharsMatch(c1, c2) <==> Lower(c1) == Lower(c2)
    ensures Lower(Upper(c1)) == Lower(c1)
  {
  }

  /** Case-insensitive equality is equality of the lower-case images. */
  lemma EqualsIgnoreCaseIffSameLower(a: string, b: string)
    ensures EqualsIgnoreCase(a, b) <==> LowerString(a) == LowerString(b)
  {
    if EqualsIgnoreCase(a, b) {
      forall i | 0 <= i < |a|
        ensures LowerString(a)[i] == LowerString(b)[i]
      {
        CharsMatchIffSameLower(a[i], b[i]);
      }
    }
    if LowerString(a) == LowerString(b) {
      forall i | 0 <= i < |a|
        ensures CharsMatch(a[i], b[i])
      {
        assert LowerString(a)[i] == LowerString(b)[i];
        CharsMatchIffSameLower(a[i], b[i]);
      }
    }
  }

  /** `EqualsIgnoreCase` is an equivalence relation. */
  lemma EqualsIgnoreCaseIsEquivalence(a: string, b: string, c: string)
    ensures EqualsIgnoreCase(a, a)
    ensures EqualsIgnoreCase(a, b) ==> EqualsIgnoreCase(b, a)
    ensures EqualsIgnoreCase(a, b) && EqualsIgnoreCase(b, c) ==> EqualsIgnoreCase(a, c)
  {
    EqualsIgnoreCaseIffSameLower(a, a);
    EqualsIgnoreCaseIffSameLower(a, b);
    EqualsIgnoreCaseIffSameLower(b, a);
    EqualsIgnoreCaseIffSameLower(b, c);
    EqualsIgnoreCaseIffSameLower(a, c);
  }

  /** A string matches its own lower-case and upper-case images. */
  lemma EqualsIgnoreCaseOwnFolds(s: string)
    ensures EqualsIgnoreCase(s, LowerString(s))
    ensures EqualsIgnoreCase(s, seq(|s|, i requires 0 <= i < |s| => Upper(s[i])))
  {
    var up := seq(|s|, i requires 0 <= i < |s| => Upper(s[i]));
    forall i | 0 <= i < |s|
      ensures CharsMatch(s[i], LowerString(s)[i]) && CharsMatch(s[i], up[i])
    {
      CharsMatchIffSameLower(s[i], LowerString(s)[i]);
      CharsMatchIffSameLower(s[i], up[i]);
    }
  }

  /**
   * `a.compareToIgnoreCase(b)`: at the first position where the characters
   * differ even after upper-casing and then lower-casing, the difference of the
   * lower-cased characters; if one string is a case-insensitive prefix of the
   * other, the difference of the lengths.
   */
  function CompareIgnoreCase(a: string, b: string): (r: int)
    ensures r == 0 ==> |a| == |b|
    ensures |a| > 0 && |b| > 0 && Lower(a[0]) != Lower(b[0]) ==> r == Lower(a[0]) as int - Lower(b[0]) as int
    decreases |a|
  {
    if |a| == 0 || |b| == 0 then |a| - |b|
    else
      var c1, c2 := a[0], b[0];
      if c1 != c2 && Upper(c1) != Upper(c2) && Lower(Upper(c1)) != Lower(Upper(c2))
      then Lower(Upper(c1)) as int - Lower(Upper(c2)) as int
      else CompareIgnoreCase(a[1..], b[1..])
  }

  /** The comparison answers zero exactly on case-insensitively equal strings. */
  lemma {:induction false} CompareIgnoreCaseZeroIff(a: string, b: string)
    ensures CompareIgnoreCase(a, b) == 0 <==> EqualsIgnoreCase(a, b)
    decreases |a|
  {
    if |a| == 0 || |b| == 0 {
    } else {
      CharsMatchIffSameLower(a[0], b[0]);
      CompareIgnoreCaseZeroIff(a[1..], b[1..]);
      if EqualsIgnoreCase(a[1..], b[1..]) && CharsMatch(a[0], b[0]) {
        assert EqualsIgnoreCase(a, b) by {
          forall i | 0 <= i < |a|
            ensures CharsMatch(a[i], b[i])
          {
            if i > 0 {
              assert a[i] == a[1..][i - 1] && b[i] == b[1..][i - 1];
            }
          }
        }
      }
      if EqualsIgnoreCase(a, b) {
        assert EqualsIgnoreCase(a[1..], b[1..]) by {
          forall i | 0 <= i < |a| - 1
            ensures CharsMatch(a[1..][i], b[1..][i])
          {
            assert a[1..][i] == a[i + 1] && b[1..][i] == b[i + 1];
          }
        }
      }
    }
  }

  /** Swapping the arguments negates the answer. */
  lemma {:induction false} CompareIgnoreCaseAntisymmetric(a: string, b: string)
    ensures CompareIgnoreCase(a, b) == -CompareIgnoreCase(b, a)
    decreases |a|
  {
    if |a| == 0 || |b| == 0 {
    } else {
      CharsMatchIffSameLower(a[0], b[0]);
      CharsMatchIffSameLower(b[0], a[0]);
      CompareIgnoreCaseAntisymmetric(a[1..], b[1..]);
    }
  }

  /** "Orders no later than" is transitive, so the comparison sorts consistently. */
  lemma {:induction false} CompareIgnoreCaseTransitive(a: string, b: string, c: string)
    requires CompareIgnoreCase(a, b) <= 0 && CompareIgnoreCase(b, c) <= 0
    ensures CompareIgnoreCase(a, c) <= 0
    decreases |a|
  {
    if |a| == 0 || |b| == 0 || |c| == 0 {
    } else {
      CharsMatchIffSameLower(a[0], b[0]);
      CharsMatchIffSameLower(b[0], c[0]);
      CharsMatchIffSameLower(a[0], c[0]);
      if Lower(a[0]) == Lower(b[0]) && Lower(b[0]) == Lower(c[0]) {
        CompareIgnoreCaseTransitive(a[1..], b[1..], c[1..]);
      }
    }
  }

  /** Day names spelt in different cases are equal ignoring case. */
  lemma MondayIgnoresCase()
    ensures EqualsIgnoreCase("MONDAY", "monday")
    ensures EqualsIgnoreCase("Monday", "mOnDaY")
    ensures !EqualsIgnoreCase("Monday", "Tuesday")
  {
  }

  /**
   * The comparison is the ascending lexicographic order of the lower-case
   * images: past a case-insensitively common prefix of length `k`, it is the
   * difference of the lower-cased characters at `k` if they differ, and the
   * difference of the lengths if one string ends there.
   */
  lemma {:induction false} CompareIgnoreCaseIsLexicographic(a: string, b: string, k: nat)
    requires k <= |a| && k <= |b| && EqualsIgnoreCase(a[..k], b[..k])
    ensures k == |a| || k == |b| ==> CompareIgnoreCase(a, b) == |a| - |b|
    ensures k < |a| && k < |b| && Lower(a[k]) != Lower(b[k]) ==>
              CompareIgnoreCase(a, b) == Lower(a[k]) as int - Lower(b[k]) as int
    decreases k
  {
    if k > 0 {
      assert CharsMatch(a[..k][0], b[..k][0]);
      CharsMatchIffSameLower(a[0], b[0]);
      var restA, restB := a[1..][..k - 1], b[1..][..k - 1];
      assert EqualsIgnoreCase(restA, restB) by {
        forall i | 0 <= i < k - 1
          ensures CharsMatch(restA[i], restB[i])
        {
          assert restA[i] == a[..k][i + 1] && restB[i] == b[..k][i + 1];
        }
      }
      CompareIgnoreCaseIsLexicographic(a[1..], b[1..], k - 1);
    }
  }

  /** Java's own ordering example and a proper-prefix example: "alice" sorts
      before "Bob", and "Ann" before "anna". */
  lemma CompareIgnoreCaseExamples()
    ensures CompareIgnoreCase("alice", "Bob") < 0
    ensures CompareIgnoreCase("Ann", "anna") < 0
  {
    CompareIgnoreCaseIsLexicographic("alice", "Bob", 0);
    CompareIgnoreCaseIsLexicographic("Ann", "anna", 3);
  }
}

=== FILE: doctor.dfy ===
/**
 * The doctor record: identity, contact details, schedule window, working days
 * and the daily patient counter, with its three constructors and the setters
 * whose behaviour is more than a field write.
 *
 * Records are immutable values; an operation that mutates a Java object here
 * returns the updated record. Because `seq` is a value, the defensive copies
 * the class makes of its working-day array on every boundary hold by
 * construction: nothing outside a record can change its stored days.
 */
module Doctors {
  import opened Wrappers
  import opened JavaInt
  import opened LocalTimes

  datatype Doctor = Doctor(
    doctorId: string,
    name: string,
    specialization: string,
    contactNumber: string,
    email: string,
    consultationFee: real,
    isAvailable: bool,
    workingDays: seq<string>,
    startTime: Option<TimeOfDay>,
    endTime: Option<TimeOfDay>,
    maxPatientsPerDay: Int32,
    currentPatientCount: Int32)

  const DEFAULT_MAX_PATIENTS: Int32 := 20

  /** The no-argument constructor: empty strings, zero fee, available, no
      working days, hours 09:00 to 17:00, capacity 20, no patients yet. */
  function DefaultDoctor(): (r: Doctor)
    ensures r.isAvailable && r.currentPatientCount == 0
    ensures r.maxPatientsPerDay == DEFAULT_MAX_PATIENTS
    ensures r.workingDays == []
    ensures r.startTime == Some(Of(9, 0)) && SecondOfDay(r.startTime.value) == 9 * 3600
    ensures r.endTime == Some(Of(17, 0)) && SecondOfDay(r.endTime.value) == 17 * 3600
    ensures r.consultationFee == 0.0
    ensures r.doctorId == r.name == r.specialization == r.contactNumber == r.email == ""
  {
    Doctor("", "", "", "", "", 0.0, true, [], Some(Of(9, 0)), Some(Of(17, 0)), DEFAULT_MAX_PATIENTS, 0)
  }

  /** The identity constructor: the defaults, then the four given fields. */
  function NewDoctor(doctorId: string, name: string, specialization: string, contactNumber: string): (r: Doctor)
    ensures r.doctorId == doctorId && r.name == name
    ensures r.specialization == specialization && r.contactNumber == contactNumber
    ensures r.(doctorId := "", name := "", specialization := "", contactNumber := "") == DefaultDoctor()
  {
    DefaultDoctor().(doctorId := doctorId, name := name, specialization := specialization,
                     contactNumber := contactNumber)
  }

  /** The full constructor. The record is always available with no patients,
      whatever the arguments; a null day array is stored as no days. */
  function FullDoctor(doctorId: string, name: string, specialization: string, contactNumber: string,
                      email: string, consultationFee: real, workingDays: Option<seq<string>>,
                      startTime: Option<TimeOfDay>, endTime: Option<TimeOfDay>,
                      maxPatientsPerDay: Int32): (r: Doctor)
    ensures r.isAvailable && r.currentPatientCount == 0
    ensures workingDays.None? ==> r.workingDays == []
    ensures workingDays.Some? ==> r.workingDays == workingDays.value
    ensures r.startTime == startTime && r.endTime == endTime
    ensures r.maxPatientsPerDay == maxPatientsPerDay
    ensures r.doctorId == doctorId && r.name == name && r.specialization == specialization
    ensures r.contactNumber == contactNumber && r.email == email && r.consultationFee == consultationFee
  {
    Doctor(doctorId, name, specialization, contactNumber, email, consultationFee, true,
           workingDays.GetOr([]), startTime, endTime, maxPatientsPerDay, 0)
  }

  /** `setWorkingDays`: a null array clears the days; otherwise they are replaced. */
  function SetWorkingDays(d: Doctor, workingDays: Option<seq<string>>): (r: Doctor)
    ensures workingDays.None? ==> r.workingDays == []
    ensures workingDays.Some? ==> r.workingDays == workingDays.value
    ensures r == d.(workingDays := r.workingDays)
  {
    d.(workingDays := workingDays.GetOr([]))
  }
}

=== FILE: identity.dfy ===
/**
 * Identity and ordering of doctor records: `equals` and `hashCode` look at
 * the doctor id alone; the name and specialization comparators order records
 * ignoring case.
 */
module Identity {
  import opened JavaInt
  import opened CaseFold
  import opened Doctors

  /** The argument of `equals(Object)`: null, a doctor record, or an object of
      any other class (a subclass of the record included). */
  datatype Object = Null | DoctorObject(doctor: Doctor) | OtherObject

  /** `equals`: only another doctor record with the same id is equal. */
  predicate Equals(d: Doctor, obj: Object)
    ensures Equals(d, obj) ==> obj.DoctorObject? && obj.doctor.doctorId == d.doctorId
    ensures obj.DoctorObject? && obj.doctor.doctorId == d.doctorId ==> Equals(d, obj)
  {
    match obj
    case Null => false
    case OtherObject => false
    case DoctorObject(other) => d.doctorId == other.doctorId
  }

  /** `hashCode`: `Objects.hash(doctorId)`, that is `31 * 1 + doctorId.hashCode()`. */
  function HashCode(d: Doctor): (h: Int32)
    ensures h == Wrap(31 + Polynomial(d.doctorId))
  {
    StringHashIsWrappedPolynomial(d.doctorId);
    assert (31 + StringHash(d.doctorId)) - (31 + Polynomial(d.doctorId)) == StringHash(d.doctorId) - Polynomial(d.doctorId);
    WrapCongruent(31 + StringHash(d.doctorId), 31 + Polynomial(d.doctorId));
    Wrap(31 + StringHash(d.doctorId))
  }

  /** Equality is decided by the id alone: records that agree on the id are
      equal whatever their other fields, and records that differ on it are not. */
  lemma EqualsIffSameId(d: Doctor, e: Doctor)
    ensures Equals(d, DoctorObject(e)) <==> d.doctorId == e.doctorId
    ensures !Equals(d, Null) && !Equals(d, OtherObject)
  {
  }

  /** `equals` is reflexive, symmetric and transitive on doctor records. */
  lemma EqualsIsEquivalence(a: Doctor, b: Doctor, c: Doctor)
    ensures Equals(a, DoctorObject(a))
    ensures Equals(a, DoctorObject(b)) ==> Equals(b, DoctorObject(a))
    ensures Equals(a, DoctorObject(b)) && Equals(b, DoctorObject(c)) ==> Equals(a, DoctorObject(c))
  {
  }

  /** Equal records have equal hash codes. */
  lemma HashCodeConsistentWithEquals(d: Doctor, e: Doctor)
    requires Equals(d, DoctorObject(e))
    ensures HashCode(d) == HashCode(e)
  {
  }

  /** `compareByName` */
  function CompareByName(d: Doctor, other: Doctor): (r: int)
    ensures r == 0 <==> EqualsIgnoreCase(d.name, other.name)
  {
    CompareIgnoreCaseZeroIff(d.name, other.name);
    CompareIgnoreCase(d.name, other.name)
  }

  /** `compareBySpecialization` */
  function CompareBySpecialization(d: Doctor, other: Doctor): (r: int)
    ensures r == 0 <==> EqualsIgnoreCase(d.specialization, other.specialization)
  {
    CompareIgnoreCaseZeroIff(d.specialization, other.specialization);
    CompareIgnoreCase(d.specialization, other.specialization)
  }

  /** Both comparators are consistent orderings: zero exactly on names
      (specializations) equal ignoring case, antisymmetric, and transitive. */
  lemma ComparatorsAreOrderings(a: Doctor, b: Doctor, c: Doctor)
    ensures CompareByName(a, b) == 0 <==> EqualsIgnoreCase(a.name, b.name)
    ensures CompareByName(a, b) == -CompareByName(b, a)
    ensures CompareByName(a, b) <= 0 && CompareByName(b, c) <= 0 ==> CompareByName(a, c) <= 0
    ensures CompareBySpecialization(a, b) == 0 <==> EqualsIgnoreCase(a.specialization, b.specialization)
    ensures CompareBySpecialization(a, b) == -CompareBySpecialization(b, a)
    ensures CompareBySpecialization(a, b) <= 0 && CompareBySpecialization(b, c) <= 0 ==>
              CompareBySpecialization(a, c) <= 0
  {
    CompareIgnoreCaseZeroIff(a.name, b.name);
    CompareIgnoreCaseAntisymmetric(a.name, b.name);
    if CompareByName(a, b) <= 0 && CompareByName(b, c) <= 0 {
      CompareIgnoreCaseTransitive(a.name, b.name, c.name);
    }
    CompareIgnoreCaseZeroIff(a.specialization, b.specialization);
    CompareIgnoreCaseAntisymmetric(a.specialization, b.specialization);
    if CompareBySpecialization(a, b) <= 0 && CompareBySpecialization(b, c) <= 0 {
      CompareIgnoreCaseTransitive(a.specialization, b.specialization, c.specialization);
    }
  }

  /** Both comparators sort ascending and lexicographically by lower-cased
      characters: past a common prefix of length `k`, the first differing
      lower-cased characters decide, and otherwise the shorter field comes first. */
  lemma ComparatorsAreLexicographic(a: Doctor, b: Doctor, k: nat)
    ensures k <= |a.name| && k <= |b.name| && EqualsIgnoreCase(a.name[..k], b.name[..k]) ==>
              && (k == |a.name| < |b.name| ==> CompareByName(a, b) < 0)
              && (k < |a.name| && k < |b.name| && Lower(a.name[k]) < Lower(b.name[k]) ==> CompareByName(a, b) < 0)
    ensures k <= |a.specialization| && k <= |b.specialization| &&
            EqualsIgnoreCase(a.specialization[..k], b.specialization[..k]) ==>
              && (k == |a.specialization| < |b.specialization| ==> CompareBySpecialization(a, b) < 0)
              && ((k < |a.specialization| && k < |b.specialization| &&
                   Lower(a.specialization[k]) < Lower(b.specialization[k])) ==>
                    CompareBySpecialization(a, b) < 0)
  {
    if k <= |a.name| && k <= |b.name| && EqualsIgnoreCase(a.name[..k], b.name[..k]) {
      CompareIgnoreCaseIsLexicographic(a.name, b.name, k);
    }
    if k <= |a.specialization| && k <= |b.specialization| &&
       EqualsIgnoreCase(a.specialization[..k], b.specialization[..k]) {
      CompareIgnoreCaseIsLexicographic(a.specialization, b.specialization, k);
    }
  }
}

=== FILE: java_int.dfy ===
/**
 * Java's 32-bit two's-complement `int`, and the `String.hashCode` polynomial
 * computed in it.
 */
module JavaInt {

  const TWO_TO_32: int := 0x1_0000_0000

  type Int32 = x: int | -0x8000_0000 <= x < 0x8000_0000

  /** The `int` that Java arithmetic yields for the mathematical value `x`. */
  function Wrap(x: int): (r: Int32)
    ensures (r - x) % TWO_TO_32 == 0
    ensures -0x8000_0000 <= x < 0x8000_0000 ==> r == x
  {
    var m := x % TWO_TO_32;
    if m >= 0x8000_0000 then m - TWO_TO_32 else m
  }

  /** Values congruent modulo 2^32 wrap to the same `int`. */
  lemma WrapCongruent(x: int, y: int)
    requires (x - y) % TWO_TO_32 == 0
    ensures Wrap(x) == Wrap(y)
  {
    var k := (x - y) / TWO_TO_32;
    assert x == y + k * TWO_TO_32;
    assert x % TWO_TO_32 == y % TWO_TO_32;
  }

  /** `s.hashCode()`: `h := 31 * h + c` over the characters, in `int` arithmetic. */
  function StringHash(s: string): Int32
  {
    if |s| == 0 then 0
    else Wrap(31 * StringHash(s[..|s| - 1]) + s[|s| - 1] as int)
  }

  /** The unbounded polynomial `s[0]*31^(n-1) + ... + s[n-1]`. */
  function Polynomial(s: string): int
  {
    if |s| == 0 then 0
    else 31 * Polynomial(s[..|s| - 1]) + s[|s| - 1] as int
  }

  /** Multiplying by 31 and adding a character keeps values congruent. */
  lemma StepCongruent(h: int, p: int, c: int)
    requires (h - p) % TWO_TO_32 == 0
    ensures ((31 * h + c) - (31 * p + c)) % TWO_TO_32 == 0
  {
    var k := (h - p) / TWO_TO_32;
    assert h - p == k * TWO_TO_32;
    assert (31 * h + c) - (31 * p + c) == 31 * (h - p);
    assert 31 * (h - p) == (31 * k) * TWO_TO_32;
  }

  /** The hash is the polynomial of the characters reduced into `int`. */
  lemma {:induction false} StringHashIsWrappedPolynomial(s: string)
    ensures StringHash(s) == Wrap(Polynomial(s))
  {
    if |s| > 0 {
      var p := s[..|s| - 1];
      var c := s[|s| - 1] as int;
      StringHashIsWrappedPolynomial(p);
      StepCongruent(StringHash(p), Polynomial(p), c);
      WrapCongruent(31 * StringHash(p) + c, 31 * Polynomial(p) + c);
    }
  }
}

=== FILE: local_time.dfy ===
/**
 * Times of day (`java.time.LocalTime`), represented by the nanosecond of the
 * day, which is the resolution `LocalTime` keeps and orders by.
 */
module LocalTimes {

  const NANOS_PER_SECOND: int := 1_000_000_000
  const SECONDS_PER_DAY: int := 86_400

  type TimeOfDay = n: int | 0 <= n < 86_400_000_000_000

  /** `LocalTime.of(hour, minute)`. */
  function Of(hour: int, minute: int): (t: TimeOfDay)
    requires 0 <= hour < 24 && 0 <= minute < 60
    ensures SecondOfDay(t) == hour * 3600 + minute * 60
    ensures t % NANOS_PER_SECOND == 0
  {
    (hour * 3600 + minute * 60) * NANOS_PER_SECOND
  }

  /** `t.toSecondOfDay()`: whole seconds since midnight, the nanoseconds dropped. */
  function SecondOfDay(t: TimeOfDay): (s: int)
    ensures 0 <= s < SECONDS_PER_DAY
    ensures s * NANOS_PER_SECOND <= t < (s + 1) * NANOS_PER_SECOND
  {
    t / NANOS_PER_SECOND
  }

  /** `a.isBefore(b)` */
  predicate IsBefore(a: TimeOfDay, b: TimeOfDay)
  {
    a < b
  }

  /** `a.isAfter(b)` */
  predicate IsAfter(a: TimeOfDay, b: TimeOfDay)
  {
    a > b
  }

  /** Dropping the nanoseconds keeps the order of times (not its strictness). */
  lemma SecondOfDayMonotone(a: TimeOfDay, b: TimeOfDay)
    requires a <= b
    ensures SecondOfDay(a) <= SecondOfDay(b)
  {
  }
}

=== FILE: patient_counter.dfy ===
/**
 * The daily patient counter: admission test, the guarded increment and
 * decrement, the unguarded setters, and the bound `0 <= count <= capacity`
 * that the guarded transitions keep.
 */
module PatientCounter {
  import opened JavaInt
  import opened Doctors

  /** The bound the guarded transitions maintain. */
  predicate CountInBounds(d: Doctor)
  {
    0 <= d.currentPatientCount <= d.maxPatientsPerDay
  }

  /** `canTakeMorePatients`: below capacity and marked available. */
  predicate CanTakeMorePatients(d: Doctor)
    ensures CanTakeMorePatients(d) ==> d.isAvailable && d.currentPatientCount + 1 <= d.maxPatientsPerDay
    ensures CanTakeMorePatients(d) ==> d.currentPatientCount + 1 < 0x8000_0000
  {
    d.currentPatientCount < d.maxPatientsPerDay && d.isAvailable
  }

  /** `incrementPatientCount`: one more patient if one can be taken, otherwise
      nothing happens. Only the counter ever changes, and it cannot overflow. */
  function IncrementPatientCount(d: Doctor): (r: Doctor)
    ensures r.currentPatientCount == d.currentPatientCount + 1 <==> CanTakeMorePatients(d)
    ensures r.currentPatientCount == d.currentPatientCount <==> !CanTakeMorePatients(d)
    ensures r == d.(currentPatientCount := r.currentPatientCount)
  {
    if CanTakeMorePatients(d) then d.(currentPatientCount := d.currentPatientCount + 1) else d
  }

  /** `decrementPatientCount`: one patient fewer if there is one, otherwise
      nothing happens. Only the counter ever changes. */
  function DecrementPatientCount(d: Doctor): (r: Doctor)
    ensures r.currentPatientCount == d.currentPatientCount - 1 <==> d.currentPatientCount > 0
    ensures r.currentPatientCount == d.currentPatientCount <==> d.currentPatientCount <= 0
    ensures d.currentPatientCount >= 0 ==> r.currentPatientCount >= 0
    ensures r == d.(currentPatientCount := r.currentPatientCount)
  {
    if d.currentPatientCount > 0 then d.(currentPatientCount := d.currentPatientCount - 1) else d
  }

  /** `setCurrentPatientCount`: unconditional, so it can leave the bound. */
  function SetCurrentPatientCount(d: Doctor, count: Int32): (r: Doctor)
    ensures r.currentPatientCount == count
    ensures CountInBounds(r) <==> 0 <= count <= d.maxPatientsPerDay
    ensures r == d.(currentPatientCount := count)
  {
    d.(currentPatientCount := count)
  }

  /** `setMaxPatientsPerDay`: unconditional, so lowering the capacity below the
      current count leaves the bound. */
  function SetMaxPatientsPerDay(d: Doctor, max: Int32): (r: Doctor)
    ensures r.maxPatientsPerDay == max
    ensures CountInBounds(d) ==> (CountInBounds(r) <==> d.currentPatientCount <= max)
    ensures r == d.(maxPatientsPerDay := max)
  {
    d.(maxPatientsPerDay := max)
  }

  /** `setAvailable` */
  function SetAvailable(d: Doctor, available: bool): (r: Doctor)
    ensures r.isAvailable == available
    ensures !available ==> !CanTakeMorePatients(r)
    ensures r == d.(isAvailable := available)
  {
    d.(isAvailable := available)
  }

  /** Each guarded transition keeps the bound. */
  lemma TransitionsKeepBounds(d: Doctor, available: bool)
    requires CountInBounds(d)
    ensures CountInBounds(IncrementPatientCount(d))
    ensures CountInBounds(DecrementPatientCount(d))
    ensures CountInBounds(SetAvailable(d, available))
  {
  }

  /** A decrement undoes an increment that took effect, and an increment undoes
      a decrement when the freed place may be taken again. */
  lemma IncrementDecrementInverse(d: Doctor)
    ensures CanTakeMorePatients(d) && d.currentPatientCount >= 0 ==>
              DecrementPatientCount(IncrementPatientCount(d)) == d
    ensures d.isAvailable && 0 < d.currentPatientCount <= d.maxPatientsPerDay ==>
              IncrementPatientCount(DecrementPatientCount(d)) == d
  {
  }

  /** An increment on an unavailable doctor changes nothing, even below capacity. */
  lemma UnavailableIncrementIsNoOp(d: Doctor)
    requires !d.isAvailable
    ensures IncrementPatientCount(d) == d
  {
  }

  /** The operations a caller may apply without touching the counter directly. */
  datatype CounterOp = Increment | Decrement | SetAvailability(available: bool)

  function Apply(d: Doctor, op: CounterOp): Doctor
  {
    match op
    case Increment => IncrementPatientCount(d)
    case Decrement => DecrementPatientCount(d)
    case SetAvailability(b) => SetAvailable(d, b)
  }

  /** The record after applying `ops` in order. */
  function ApplyAll(d: Doctor, ops: seq<CounterOp>): Doctor
    decreases |ops|
  {
    if |ops| == 0 then d else ApplyAll(Apply(d, ops[0]), ops[1..])
  }

  /** The bound survives any finite sequence of guarded operations. */
  lemma {:induction false} ApplyAllKeepsBounds(d: Doctor, ops: seq<CounterOp>)
    requires CountInBounds(d)
    ensures CountInBounds(ApplyAll(d, ops))
    decreases |ops|
  {
    if |ops| > 0 {
      TransitionsKeepBounds(d, if ops[0].SetAvailability? then ops[0].available else d.isAvailable);
      ApplyAllKeepsBounds(Apply(d, ops[0]), ops[1..]);
    }
  }

  /** Any sequence of guarded operations touches only the counter and the
      availability flag, and moves the counter by at most one per operation. */
  lemma {:induction false} ApplyAllFrame(d: Doctor, ops: seq<CounterOp>)
    ensures var r := ApplyAll(d, ops);
            r == d.(currentPatientCount := r.currentPatientCount, isAvailable := r.isAvailable)
    ensures -|ops| <= ApplyAll(d, ops).currentPatientCount - d.currentPatientCount <= |ops|
    decreases |ops|
  {
    if |ops| > 0 {
      ApplyAllFrame(Apply(d, ops[0]), ops[1..]);
    }
  }

  /** `n` calls of `incrementPatientCount`. */
  function IncrementTimes(d: Doctor, n: nat): Doctor
    decreases n
  {
    if n == 0 then d else IncrementTimes(IncrementPatientCount(d), n - 1)
  }

  /** Repeated increments fill up to capacity and stop there; on an
      unavailable doctor they do nothing. */
  lemma {:induction false} IncrementTimesSaturates(d: Doctor, n: nat)
    requires d.currentPatientCount <= d.maxPatientsPerDay
    ensures IncrementTimes(d, n).currentPatientCount ==
              if !d.isAvailable then d.currentPatientCount
              else if d.currentPatientCount + n <= d.maxPatientsPerDay then d.currentPatientCount + n
              else d.maxPatientsPerDay
    ensures IncrementTimes(d, n) == d.(currentPatientCount := IncrementTimes(d, n).currentPatientCount)
    decreases n
  {
    if n > 0 {
      IncrementTimesSaturates(IncrementPatientCount(d), n - 1);
    }
  }

  /** `n` calls of `decrementPatientCount`. */
  function DecrementTimes(d: Doctor, n: nat): Doctor
    decreases n
  {
    if n == 0 then d else DecrementTimes(DecrementPatientCount(d), n - 1)
  }

  /** Repeated decrements empty the counter and stop at zero. */
  lemma {:induction false} DecrementTimesFloorsAtZero(d: Doctor, n: nat)
    requires d.currentPatientCount >= 0
    ensures DecrementTimes(d, n).currentPatientCount ==
              if d.currentPatientCount >= n then d.currentPatientCount - n else 0
    ensures DecrementTimes(d, n) == d.(currentPatientCount := DecrementTimes(d, n).currentPatientCount)
    decreases n
  {
    if n > 0 {
      DecrementTimesFloorsAtZero(DecrementPatientCount(d), n - 1);
    }
  }

  /** The direct setter breaks the bound that the guarded transitions keep. */
  lemma SetCurrentPatientCountCanBreakBounds()
    ensures CountInBounds(DefaultDoctor())
    ensures !CountInBounds(SetCurrentPatientCount(DefaultDoctor(), 21))
    ensures !CountInBounds(SetCurrentPatientCount(DefaultDoctor(), -1))
  {
  }
}

=== FILE: scenarios.dfy ===
/**
 * What the constructors promise about a fresh record, and the capacity
 * scenarios that follow from the counter's transitions.
 */
module Scenarios {
  import opened Wrappers
  import opened LocalTimes
  import opened Doctors
  import opened PatientCounter
  import opened Schedule

  /** A default record is within bounds, takes patients, works no day, and
      has an eight-hour window that includes 09:00 and 17:00 but not the
      nanosecond before 09:00. */
  lemma DefaultDoctorIsReady(day: string)
    ensures CountInBounds(DefaultDoctor()) && CanTakeMorePatients(DefaultDoctor())
    ensures !ListsDay(DefaultDoctor().workingDays, day)
    ensures WorkingSeconds(DefaultDoctor()) == 8 * 3600
    ensures IsWithinWorkingHours(DefaultDoctor(), Some(Of(9, 0)))
    ensures IsWithinWorkingHours(DefaultDoctor(), Some(Of(17, 0)))
    ensures !IsWithinWorkingHours(DefaultDoctor(), Some(Of(9, 0) - 1))
  {
  }

  /** A fully built record starts empty and available, so it is within bounds
      exactly when its capacity is not negative and takes patients exactly
      when its capacity is positive. */
  lemma FullDoctorStartsEmpty(doctorId: string, name: string, specialization: string, contactNumber: string,
                              email: string, fee: real, days: Option<seq<string>>,
                              startTime: Option<TimeOfDay>, endTime: Option<TimeOfDay>,
                              max: JavaInt.Int32, day: string)
    ensures var r := FullDoctor(doctorId, name, specialization, contactNumber, email, fee, days,
                                startTime, endTime, max);
            && (CountInBounds(r) <==> max >= 0)
            && (CanTakeMorePatients(r) <==> max > 0)
            && (days.None? ==> !ListsDay(r.workingDays, day))
  {
  }

  /** Twenty admissions fill a record built with the identity constructor; a
      twenty-first leaves the count at twenty. */
  lemma TwentyAdmissionsFillTheDay()
    ensures var d := NewDoctor("D1", "Alice", "Cardiology", "555-0100");
            && IncrementTimes(d, 20).currentPatientCount == 20
            && !CanTakeMorePatients(IncrementTimes(d, 20))
            && IncrementTimes(d, 21).currentPatientCount == 20
  {
    var d := NewDoctor("D1", "Alice", "Cardiology", "555-0100");
    IncrementTimesSaturates(d, 20);
    IncrementTimesSaturates(d, 21);
  }

  /** A record with no capacity never admits anyone. */
  lemma ZeroCapacityAdmitsNobody(d: Doctor, n: nat)
    requires d.maxPatientsPerDay == 0 && d.currentPatientCount == 0
    ensures !CanTakeMorePatients(d)
    ensures IncrementTimes(d, n).currentPatientCount == 0
  {
    IncrementTimesSaturates(d, n);
  }
}

=== FILE: schedule.dfy ===
/**
 * Schedule queries: whether a day name is one of the working days (ignoring
 * case), whether a time falls inside the inclusive working-hours window, and
 * the length of that window in whole seconds.
 */
module Schedule {
  import opened Wrappers
  import opened CaseFold
  import opened LocalTimes
  import opened Doctors

  /** Some stored day names `day`, ignoring case. */
  predicate ListsDay(days: seq<string>, day: string)
  {
    exists i :: 0 <= i < |days| && EqualsIgnoreCase(days[i], day)
  }

  /** `isWorkingToday`: scans the working days in order and stops at the first
      one that equals `day` ignoring case. */
  method IsWorkingToday(d: Doctor, day: string) returns (working: bool)
    ensures working <==> ListsDay(d.workingDays, day)
  {
    var k := 0;
    while k < |d.workingDays|
      invariant 0 <= k <= |d.workingDays|
      invariant forall i :: 0 <= i < k ==> !EqualsIgnoreCase(d.workingDays[i], day)
    {
      if EqualsIgnoreCase(d.workingDays[k], day) {
        return true;
      }
      k := k + 1;
    }
    return false;
  }

  /** No stored days means no working day. */
  lemma NoDaysNoWorkingDay(days: seq<string>, day: string)
    requires days == []
    ensures !ListsDay(days, day)
  {
  }

  /** Day names that are equal ignoring case get the same answer; in particular
      a day name and its lower-case spelling do. */
  lemma ListsDayIgnoresCase(days: seq<string>, day: string, other: string)
    requires EqualsIgnoreCase(day, other)
    ensures ListsDay(days, day) <==> ListsDay(days, other)
    ensures ListsDay(days, day) <==> ListsDay(days, LowerString(day))
  {
    EqualsIgnoreCaseOwnFolds(day);
    if ListsDay(days, day) {
      var i :| 0 <= i < |days| && EqualsIgnoreCase(days[i], day);
      EqualsIgnoreCaseIsEquivalence(days[i], day, other);
      EqualsIgnoreCaseIsEquivalence(days[i], day, LowerString(day));
    }
    if ListsDay(days, other) {
      var i :| 0 <= i < |days| && EqualsIgnoreCase(days[i], other);
      EqualsIgnoreCaseIsEquivalence(day, other, days[i]);
      EqualsIgnoreCaseIsEquivalence(days[i], other, day);
    }
    if ListsDay(days, LowerString(day)) {
      var i :| 0 <= i < |days| && EqualsIgnoreCase(days[i], LowerString(day));
      EqualsIgnoreCaseIsEquivalence(day, LowerString(day), days[i]);
      EqualsIgnoreCaseIsEquivalence(days[i], LowerString(day), day);
    }
  }

  /** `isWithinWorkingHours`: the time and both bounds present, and the time
      neither before the start nor after the end. */
  predicate IsWithinWorkingHours(d: Doctor, time: Option<TimeOfDay>)
    ensures IsWithinWorkingHours(d, time) ==>
              d.startTime.Some? && d.endTime.Some? && time.Some? &&
              d.startTime.value <= time.value <= d.endTime.value
  {
    time.Some? && d.startTime.Some? && d.endTime.Some? &&
    !IsBefore(time.value, d.startTime.value) && !IsAfter(time.value, d.endTime.value)
  }

  /** The window is the closed interval from start to end: both ends belong
      to it and nothing outside it does. */
  lemma WorkingHoursAreClosedInterval(d: Doctor, t: TimeOfDay)
    ensures IsWithinWorkingHours(d, Some(t)) <==>
              d.startTime.Some? && d.endTime.Some? && d.startTime.value <= t <= d.endTime.value
    ensures d.startTime.Some? && d.endTime.Some? && d.startTime.value <= d.endTime.value ==>
              IsWithinWorkingHours(d, d.startTime) && IsWithinWorkingHours(d, d.endTime)
    ensures d.startTime.Some? && t < d.startTime.value ==> !IsWithinWorkingHours(d, Some(t))
    ensures d.endTime.Some? && t > d.endTime.value ==> !IsWithinWorkingHours(d, Some(t))
  {
  }

  /** An absent time or bound is never within working hours. */
  lemma AbsentTimeNeverWithin(d: Doctor, time: Option<TimeOfDay>)
    requires time.None? || d.startTime.None? || d.endTime.None?
    ensures !IsWithinWorkingHours(d, time)
  {
  }

  /** `calculateWorkingHours` before its division by 3600: whole seconds from
      start to end, zero if a bound is absent, negative if the end comes first. */
  function WorkingSeconds(d: Doctor): (r: int)
    ensures d.startTime.None? || d.endTime.None? ==> r == 0
    ensures d.startTime.Some? && d.endTime.Some? ==>
              (r - 1) * NANOS_PER_SECOND < d.endTime.value - d.startTime.value < (r + 1) * NANOS_PER_SECOND
    ensures r < 0 <==>
              (d.startTime.Some? && d.endTime.Some? &&
               SecondOfDay(d.endTime.value) < SecondOfDay(d.startTime.value))
    ensures -SECONDS_PER_DAY < r < SECONDS_PER_DAY
  {
    if d.startTime.None? || d.endTime.None? then 0
    else SecondOfDay(d.endTime.value) - SecondOfDay(d.startTime.value)
  }

  /** The sign of the duration follows the order of the bounds: a negative
      duration means an inverted window, an end at least a second before the
      start gives a negative duration (it is not clamped to zero), and a window
      that holds any time has a non-negative duration. */
  lemma WorkingSecondsSign(d: Doctor, t: TimeOfDay)
    ensures WorkingSeconds(d) < 0 ==> d.startTime.Some? && d.endTime.Some? && d.endTime.value < d.startTime.value
    ensures d.startTime.Some? && d.endTime.Some? && d.endTime.value + NANOS_PER_SECOND <= d.startTime.value ==>
              WorkingSeconds(d) < 0
    ensures d.startTime.Some? && d.endTime.Some? && d.startTime.value <= d.endTime.value ==> WorkingSeconds(d) >= 0
    ensures IsWithinWorkingHours(d, Some(t)) ==> WorkingSeconds(d) >= 0
  {
    if d.startTime.Some? && d.endTime.Some? {
      if d.startTime.value <= d.endTime.value {
        SecondOfDayMonotone(d.startTime.value, d.endTime.value);
      } else {
        SecondOfDayMonotone(d.endTime.value, d.startTime.value);
      }
    }
  }

  /** A window from 17:00 back to 09:00 spans minus eight hours. */
  lemma InvertedWindowIsNegative(d: Doctor)
    requires d.startTime == Some(Of(17, 0)) && d.endTime == Some(Of(9, 0))
    ensures WorkingSeconds(d) == -8 * 3600
  {
  }
}

=== FILE: wrappers.dfy ===
/** Optional values: the model's stand-in for a Java reference that may be null. */
module Wrappers {

  datatype Option<+T> = None | Some(value: T) {

    /** The present value, with `default` standing in for null. */
    function GetOr(default: T): (r: T)
      ensures Some? ==> r == value
      ensures None? ==> r == default
    {
      match this
      case Some(v) => v
      case None => default
    }
  }
}
